=== FILE: README.md ===
# Marine-forecast ReAct agent, modelled in Dafny

The repository is a small LangGraph ReAct agent. A language model decides,
turn by turn, whether to answer or to call one tool, `getMarineForcast`. That
tool reads a buoy's real-time observation file from the National Data Buoy
Center and renders the latest wave height and period as a sentence. The model
has two parts.

- **Forecast tool** (`forecast.dfy`, module `Forecast`). The tool skips the
  two header lines of the feed and scans the remaining rows in order. It stops
  at the first row it does not skip. A row is skipped when its token list is
  empty (a whitespace-only line), when token 8 is the sentinel `MM`, or when
  token 9 is `MM`. The row it stops at is either accepted (tokens 8 and 9 are
  both present and neither is `MM`) or it makes the tool raise `IndexError`:
  a blank line, 1 to 8 tokens, or exactly 9 tokens with token 8 not `MM`. An
  accepted row whose height does not convert to a number makes the tool raise
  as well and is not rendered (`NotANumber`). Otherwise the tool renders
  `The waves are <h> feet with period of <p> seconds.`. When every data row is
  skipped it renders the defaults 0 and 0. Python's `str` of an integer is modelled
  in `decimal.dfy` (module `Decimal`) together with its parse-back.
- **Agent loop** (`agent.dfy`, module `Agent`). The message kinds, the tool
  table, the router `should_continue`, the model node `llm_call`, the tool
  node `tool_node`, one graph step and a fuel-bounded run. The model is an
  oracle from its input messages to a reply or an exception. Tools are
  functions from an argument map to an observation or an exception. The
  proofs show what shape the transcript has after every step: the caller's
  messages, then complete tool rounds, then one open or final assistant
  message.
- **Deployment** (`marine_agent.dfy`, module `MarineAgent`). The forecast
  tool is registered under its function name as the agent's only tool, and
  its URL is built from the buoy id.
- `wrappers.dfy` (module `Wrappers`) holds the `Option` and `Result` types.

Behaviour worth noting:

- A tool that raises, or a call naming an unknown tool, aborts the whole run
  (main/ReAct-LangGraph-Agentic-Example.py:88-93). `tool_node` has no
  exception handling, so no textual observation is produced, and the answers
  already computed for the batch are lost with it.
- Duplicate tool names are not rejected. The dict comprehension at
  main/ReAct-LangGraph-Agentic-Example.py:55 keeps the last tool of a name
  (`Agent.Registry`).
- When every data row is skipped, the zero sentence is returned as if it
  were a reading (main/ReAct-LangGraph-Agentic-Example.py:42, 51). No
  distinct "no observation" outcome exists.
- A malformed row that the short circuit at
  main/ReAct-LangGraph-Agentic-Example.py:44-46 does not skip makes the tool
  raise instead of being passed over: a blank line, 1 to 8 tokens, or exactly
  9 tokens with token 8 not `MM`. A whitespace-only line and a 9-token row
  whose token 8 is `MM` are skipped.

## Model

| member | source | states |
|---|---|---|
| Decimal.IntToDecimal | main/ReAct-LangGraph-Agentic-Example.py:18 | `str` of an int is non-empty, starts with `-` exactly for negatives, and is otherwise a digit string without a leading zero |
| Decimal.NatDigitsRoundTrip | main/ReAct-LangGraph-Agentic-Example.py:18 | the digits written for a natural number read back as that number |
| Decimal.IntToDecimalRoundTrip | main/ReAct-LangGraph-Agentic-Example.py:18 | parsing what `str` wrote for an integer gives the integer back |
| Decimal.IntToDecimalInjective | main/ReAct-LangGraph-Agentic-Example.py:18 | distinct wave heights render as distinct strings |
| Forecast.Sentence | main/ReAct-LangGraph-Agentic-Example.py:17-18 | the sentence is the fixed prefix, the height, the fixed middle text, the period and the fixed suffix, each at its computed position |
| Forecast.SentenceLayout | main/ReAct-LangGraph-Agentic-Example.py:18 | the height's characters sit right after the prefix and are followed by a space |
| Forecast.SentenceInjective | main/ReAct-LangGraph-Agentic-Example.py:18 | a sentence determines its height and its period, provided the height has no space |
| Forecast.RenderInjective | main/ReAct-LangGraph-Agentic-Example.py:12-18 | two forecast objects that render alike have the same height and the same period text |
| Forecast.PeriodStr | main/ReAct-LangGraph-Agentic-Example.py:18 | `str` of the period field is the selected token verbatim, or, for the initial integer, exactly its `str`, which reads back as that integer |
| Forecast.Render | main/ReAct-LangGraph-Agentic-Example.py:17-18 | `getHumanReadableStr` opens with the prefix, then the height's `str`, then " feet with period of ", and ends with the period text followed by the suffix |
| Forecast.RenderReadsBack | main/ReAct-LangGraph-Agentic-Example.py:17-18 | the numeral after the prefix of a rendered forecast reads back as its wave height |
| Forecast.DefaultSentence | main/ReAct-LangGraph-Agentic-Example.py:13-15 | a fresh forecast object renders as "The waves are 0 feet with period of 0 seconds." |
| Forecast.Classify | main/ReAct-LangGraph-Agentic-Example.py:44-46 | a row is accepted iff it is a record whose token list has tokens 8 and 9, neither `MM`; acceptance yields exactly those tokens; the row raises iff it has no field, is non-empty with at most 8 tokens, or has exactly 9 tokens with token 8 not `MM`; otherwise it is skipped |
| Forecast.ScanFrom | main/ReAct-LangGraph-Agentic-Example.py:43-49 | starting after skipped rows, the scan is exhausted iff every row is skipped, and otherwise stops at the first non-skipped row with that row's decision |
| Forecast.Scan | main/ReAct-LangGraph-Agentic-Example.py:43-49 | the scan is exhausted iff every data row is skipped; otherwise it stops at the first non-skipped row with that row's decision |
| Forecast.SelectRow | main/ReAct-LangGraph-Agentic-Example.py:43-49 | the `for ... break` loop computes the same result as the scan |
| Forecast.ScanUnique | main/ReAct-LangGraph-Agentic-Example.py:43-49 | any result meeting the first-stop characterisation is the scan's result |
| Forecast.FirstStopUnique | main/ReAct-LangGraph-Agentic-Example.py:43-49 | at most one row is the first non-skipped row |
| Forecast.DataRows | main/ReAct-LangGraph-Agentic-Example.py:38-40 | the rows examined are exactly the lines after the first two, and none when the feed has at most two lines |
| Forecast.ForecastOf | main/ReAct-LangGraph-Agentic-Example.py:37-51 | with every data row skipped the tool returns the zero sentence; otherwise the first non-skipped row decides: a fault raises with that record's 0-based index, a height that does not convert raises, and else the sentence holds the converted height and token 9 copied verbatim |
| Forecast.HeadersIgnored | main/ReAct-LangGraph-Agentic-Example.py:39-40 | replacing the two header lines never changes the tool's result |
| Forecast.SameDataRowsSameForecast | main/ReAct-LangGraph-Agentic-Example.py:39-51 | two feeds with the same data rows after the headers give the same result |
| Forecast.ShortFeedGivesDefault | main/ReAct-LangGraph-Agentic-Example.py:39-42 | a feed of two or fewer lines yields the zero sentence |
| Forecast.LaterRowsIgnored | main/ReAct-LangGraph-Agentic-Example.py:43-49 | rows after the first non-skipped row can be replaced by anything without changing the scan |
| Forecast.ForecastIgnoresLaterLines | main/ReAct-LangGraph-Agentic-Example.py:37-51 | the same holds for the whole tool: lines after the deciding line are never inspected |
| Forecast.SkippedPrefixIgnored | main/ReAct-LangGraph-Agentic-Example.py:43-46 | putting skipped rows in front only shifts the deciding row's index |
| Forecast.OneMetreExample | main/ReAct-LangGraph-Agentic-Example.py:37-51 | two headers and one row with 1.0 m and 10 s, where 1.0 m converts to 3 feet, give "The waves are 3 feet with period of 10 seconds." |
| Agent.Registry | main/ReAct-LangGraph-Agentic-Example.py:54-55 | the table's names are exactly the tools' names, and each name maps to the last tool carrying it |
| Agent.ShouldContinue | main/ReAct-LangGraph-Agentic-Example.py:97-106 | routes to the tool node iff the last message is an assistant message with a non-empty tool-call list, ends iff it has an empty list, and raises on an empty transcript or a non-assistant last message |
| Agent.CallModel | main/ReAct-LangGraph-Agentic-Example.py:59-83 | the model sees the system instructions in front of the transcript; a reply becomes one assistant message with the reply's content and tool calls, and an exception becomes a model failure carrying its reason |
| Agent.CallTool | main/ReAct-LangGraph-Agentic-Example.py:89-91 | an unregistered name fails as an unknown tool; otherwise the result is the registered tool's observation, or its exception tagged with the call's id and name |
| Agent.RunCalls | main/ReAct-LangGraph-Agentic-Example.py:88-93 | the batch succeeds iff every call succeeds, and then holds exactly one tool message per call, in order, with the call's id and observation |
| Agent.BatchStopsAtFirstFailure | main/ReAct-LangGraph-Agentic-Example.py:88-93 | a batch fails with the error of its first failing call |
| Agent.RunCallsFailure | main/ReAct-LangGraph-Agentic-Example.py:88-93 | a failing batch fails only as an unknown tool or a tool exception |
| Agent.ToolNode | main/ReAct-LangGraph-Agentic-Example.py:85-93 | the tool node depends on the last message only: it runs that message's calls, and raises when there is no last message or it is not an assistant message |
| Agent.Step | main/ReAct-LangGraph-Agentic-Example.py:113-127 | a step only appends; the model node appends exactly one assistant message and moves to the tool node iff that message has tool calls, and finishes the run iff it has none; the tool node always hands back to the model node |
| Agent.ModelStepAppendsReply | main/ReAct-LangGraph-Agentic-Example.py:59-83 | the message the model node appends is exactly the converted model reply, the run finishes there iff the reply has no tool calls, and the node fails only with the model call's own error |
| Agent.ModelStepWith | main/ReAct-LangGraph-Agentic-Example.py:117-126 | given the model's reply, the model node appends it and goes to the tool node when it has tool calls, and ends the run when it has none |
| Agent.ToolStepWith | main/ReAct-LangGraph-Agentic-Example.py:85-93 | when all calls of the last assistant message succeed, the tool node appends their answers and hands back to the model node |
| Agent.ToolRoundThenModel | main/ReAct-LangGraph-Agentic-Example.py:117-127 | a reply with tool calls whose calls all succeed takes the run, in two node visits, back to the model node with the reply and the answers appended |
| Agent.RoundsAppend | main/ReAct-LangGraph-Agentic-Example.py:85-93 | answering an assistant message's calls one for one closes a complete round |
| Agent.RoundsHoldOnlyReplies | main/ReAct-LangGraph-Agentic-Example.py:59-93 | complete rounds contain only assistant and tool messages |
| Agent.ModelStepConsistent | main/ReAct-LangGraph-Agentic-Example.py:117-126 | from complete rounds, the model node leaves one open assistant message (tool node next) or a final one (run ends), and can only fail because the model raised |
| Agent.ToolStepConsistent | main/ReAct-LangGraph-Agentic-Example.py:85-93 | at the tool node the answers close the open round before control returns to the model; failures are unknown tools or tool exceptions only |
| Agent.StepConsistent | main/ReAct-LangGraph-Agentic-Example.py:117-127 | every step keeps the transcript's shape, and never fails in the router or on an unreadable last message |
| Agent.RunUnfold | main/ReAct-LangGraph-Agentic-Example.py:117-127 | a run at a node with fuel left takes one step, then continues from the next configuration or aborts with the step's error |
| Agent.RunAppendOnly | main/ReAct-LangGraph-Agentic-Example.py:117-136 | `Run` only adds messages: a completed run extends its starting transcript, by at least one message when it started at a node, and a run out of fuel stopped at an extension of it |
| Agent.Invoke | main/ReAct-LangGraph-Agentic-Example.py:117-136 | a run started from the caller's messages at the model node completes, if it does, with those messages followed by at least one more |
| Agent.RunConsistent | main/ReAct-LangGraph-Agentic-Example.py:110-130 | every configuration a run reaches keeps that shape, and an aborted run stopped on a model or tool exception or an unknown tool |
| Agent.InvokeShape | main/ReAct-LangGraph-Agentic-Example.py:117-127 | a completed run keeps the caller's messages, adds complete rounds and one final assistant message without tool calls, and stores no system or human message of its own |
| Agent.RunFuelMonotone | main/ReAct-LangGraph-Agentic-Example.py:117-127 | a run that stopped within some number of node visits gives the same outcome with more visits allowed |
| Agent.FinalAnswerFirst | main/ReAct-LangGraph-Agentic-Example.py:100-106 | if the first reply asks for no tool, the run ends after one model call with exactly that answer appended |
| Agent.OneToolRound | main/ReAct-LangGraph-Agentic-Example.py:117-127 | one tool round followed by a final answer yields the caller's messages, the assistant message with its calls, one answer per call in order, and the final answer |
| MarineAgent.FeedUrl | main/ReAct-LangGraph-Agentic-Example.py:36 | the feed address is the fixed host path, the buoy id and `.txt` |
| MarineAgent.FeedUrlInjective | main/ReAct-LangGraph-Agentic-Example.py:36 | distinct buoy ids give distinct feed addresses |
| MarineAgent.Describe | main/ReAct-LangGraph-Agentic-Example.py:44-47 | a row that raised gives Python's "list index out of range", and only that; a height that does not convert gives a text ending in the offending token |
| MarineAgent.MarineTool | main/ReAct-LangGraph-Agentic-Example.py:23-51 | the tool is named `getMarineForcast`; without `buoyId` it fails; it fetches the buoy's feed URL, passes a fetch exception through, and otherwise returns the forecast sentence or the described forecast exception |
| MarineAgent.Deploy | main/ReAct-LangGraph-Agentic-Example.py:54-56 | the deployed agent's tool table holds exactly the forecast tool's name |
| MarineAgent.ForecastCall | main/ReAct-LangGraph-Agentic-Example.py:24-51 | calling any other name is an unknown tool; calling the forecast tool with a buoy id returns the forecast of that buoy's feed, and a fetch or forecast exception fails the call under its id |

## Left out

- The HTTP request, TLS settings, UTF-8 decoding and line splitting are network I/O. The `fetch` parameter of `MarineAgent.MarineTool` takes a URL and returns the feed as CSV records, or an exception.
- CSV quoting is not modelled. Each record is either a record with no field (a blank line) or the whitespace tokens of its first comma-separated field (`Forecast.FeedRow`). A quoted field spanning lines is not modelled.
- `round(float(token) * 3.28084)` is floating point. It is the parameter `feet` (token to integer), with `None` where `float` or `round` raises.
- The chat-model client, `bind_tools` and the tool declarations it sends are a foreign call. The model is the oracle `Agent.model`, and the tool schema it sees is not modelled.
- The system prompt's text is the `instructions` field. Only its position in front of the model input is modelled.
- Graph compilation and the LangGraph runtime are left out. Only the routing rule, the edges and appending to the message list are kept. The id-based message replacement of LangGraph's message reducer is not modelled: new messages carry fresh ids, so they are appended.
- The graph sets no iteration cap of its own. LangGraph's default recursion limit, which raises `GraphRecursionError` when a run needs more steps, is not modelled. `Agent.Run` counts node visits as fuel; `OutOfFuel`, with the fuel set to that limit, stands for that exception.
- The tool decorator validates arguments. Only the presence of `buoyId` is modelled, not its type.
- Exception texts are approximated (`MarineAgent.Describe`), not Python's exact messages.
- The module-level invocation and `pretty_print` output are left out as process I/O.
- MarineAgent.Deploy: states only the tool table's names. The model and the instructions are passed through unchanged.
- MarineAgent.ForecastCall: says only that a forecast call without `buoyId` fails, not with which message.

=== FILE: agent.dfy ===
/** The ReAct agent loop: a model node that appends one assistant message,
    a router that sends the run to the tool node when that message asks for
    tools and ends it otherwise, and a tool node that answers every
    requested call and hands control back to the model node. */
module Agent {
  import opened Wrappers

  /** A tool's keyword arguments. */
  type Args = map<string, string>

  /** One tool-call request inside an assistant message. */
  datatype ToolCall = ToolCall(id: string, name: string, args: Args)

  /** The message kinds of the conversation. */
  datatype Message =
    | SystemMessage(content: string)
    | HumanMessage(content: string)
    | AIMessage(content: string, toolCalls: seq<ToolCall>)
    | ToolMessage(toolCallId: string, content: string)

  /** What the language model answers: text plus zero or more tool calls. */
  datatype Reply = Reply(content: string, toolCalls: seq<ToolCall>)

  /** An executable tool under its registered name; `Failure` stands for
      an exception raised while it runs. */
  datatype Tool = Tool(name: string, run: Args -> Result<string, string>)

  /** Everything one run depends on: the model as an oracle from its input
      messages to a reply (or the exception it raises), the tools by name,
      and the text of the system instructions. */
  datatype Agent = Agent(
    model: seq<Message> -> Result<Reply, string>,
    tools: map<string, Tool>,
    instructions: string)

  /** Why a run stops with an exception instead of a transcript. */
  datatype AgentError =
    | ModelFailed(reason: string)                        // the model call raised
    | EmptyTranscript                                    // `messages[-1]` on an empty list
    | NotAnAssistantMessage                              // `.tool_calls` on a message that is not an AIMessage
    | UnknownTool(name: string)                          // `tools_by_name[name]` raised KeyError
    | ToolFailed(id: string, name: string, reason: string)  // the tool itself raised

  /** The router's two answers. */
  datatype Route = Action | End

  /** The two graph nodes. */
  datatype Node = LlmCall | Environment

  /** A run is either at a node with its transcript, or finished. */
  datatype Config = Running(node: Node, transcript: seq<Message>) | Finished(transcript: seq<Message>)

  /** The result of running with a bounded number of node visits. */
  datatype Outcome =
    | Completed(transcript: seq<Message>)
    | Aborted(error: AgentError)
    | OutOfFuel(config: Config)

  /** The tool table built from the tool list: a later tool with the same
      name replaces an earlier one. */
  function Registry(tools: seq<Tool>): (m: map<string, Tool>)
    ensures m.Keys == set i | 0 <= i < |tools| :: tools[i].name
    ensures forall i | 0 <= i < |tools| && (forall j | i < j < |tools| :: tools[j].name != tools[i].name) ::
              m[tools[i].name] == tools[i]
    decreases |tools|
  {
    if |tools| == 0 then map[]
    else
      var last := tools[|tools| - 1];
      var earlier := tools[..|tools| - 1];
      assert forall i | 0 <= i < |earlier| :: earlier[i] == tools[i];
      Registry(earlier)[last.name := last]
  }

  /** The router: go to the tool node exactly when the last message is an
      assistant message with at least one tool call. */
  function ShouldContinue(messages: seq<Message>): (r: Result<Route, AgentError>)
    ensures r == Success(Action) <==>
              |messages| > 0 && messages[|messages| - 1].AIMessage? && |messages[|messages| - 1].toolCalls| > 0
    ensures r == Success(End) <==>
              |messages| > 0 && messages[|messages| - 1].AIMessage? && messages[|messages| - 1].toolCalls == []
    ensures r.Failure? <==> |messages| == 0 || !messages[|messages| - 1].AIMessage?
  {
    if |messages| == 0 then Failure(EmptyTranscript)
    else
      var last := messages[|messages| - 1];
      if !last.AIMessage? then Failure(NotAnAssistantMessage)
      else if |last.toolCalls| > 0 then Success(Action)
      else Success(End)
  }

  /** The model node: the system instructions go in front of the transcript
      for this call only; the reply becomes one assistant message. */
  function CallModel(agent: Agent, transcript: seq<Message>): (r: Result<Message, AgentError>)
    ensures r.Success? <==> agent.model([SystemMessage(agent.instructions)] + transcript).Success?
    ensures r.Success? ==>
              r.value.AIMessage?
              && r.value.content == agent.model([SystemMessage(agent.instructions)] + transcript).value.content
              && r.value.toolCalls == agent.model([SystemMessage(agent.instructions)] + transcript).value.toolCalls
    ensures r.Failure? ==>
              r.error == ModelFailed(agent.model([SystemMessage(agent.instructions)] + transcript).error)
  {
    match agent.model([SystemMessage(agent.instructions)] + transcript)
    case Failure(e) => Failure(ModelFailed(e))
    case Success(reply) => Success(AIMessage(reply.content, reply.toolCalls))
  }

  /** Looking up and running the tool one call names. */
  function CallTool(tools: map<string, Tool>, call: ToolCall): (r: Result<string, AgentError>)
    ensures call.name !in tools ==> r == Failure(UnknownTool(call.name))
    ensures call.name in tools ==>
              match tools[call.name].run(call.args)
              case Success(observation) => r == Success(observation)
              case Failure(e) => r == Failure(ToolFailed(call.id, call.name, e))
  {
    if call.name !in tools then Failure(UnknownTool(call.name))
    else match tools[call.name].run(call.args)
      case Failure(e) => Failure(ToolFailed(call.id, call.name, e))
      case Success(observation) => Success(observation)
  }

  /** `answers` answers `calls` one for one and in order, each by the id of
      the call it answers. */
  ghost predicate AnswersBatch(calls: seq<ToolCall>, answers: seq<Message>) {
    |answers| == |calls|
    && forall i | 0 <= i < |calls| :: answers[i].ToolMessage? && answers[i].toolCallId == calls[i].id
  }

  /** The loop over one batch of calls, in request order; the first call
      that raises aborts the whole batch. */
  function RunCalls(tools: map<string, Tool>, calls: seq<ToolCall>): (r: Result<seq<Message>, AgentError>)
    ensures r.Success? <==> forall i | 0 <= i < |calls| :: CallTool(tools, calls[i]).Success?
    ensures r.Success? ==>
              AnswersBatch(calls, r.value)
              && forall i | 0 <= i < |calls| :: r.value[i].content == CallTool(tools, calls[i]).value
    decreases |calls|
  {
    if |calls| == 0 then Success([])
    else match CallTool(tools, calls[0])
      case Failure(e) => Failure(e)
      case Success(observation) =>
        match RunCalls(tools, calls[1..])
        case Failure(e) => Failure(e)
        case Success(rest) => Success([ToolMessage(calls[0].id, observation)] + rest)
  }

  /** The tool node: reads the calls of the last message only. */
  function ToolNode(agent: Agent, transcript: seq<Message>): (r: Result<seq<Message>, AgentError>)
    ensures |transcript| == 0 ==> r == Failure(EmptyTranscript)
    ensures |transcript| > 0 && !transcript[|transcript| - 1].AIMessage? ==> r == Failure(NotAnAssistantMessage)
    ensures |transcript| > 0 && transcript[|transcript| - 1].AIMessage? ==>
              r == RunCalls(agent.tools, transcript[|transcript| - 1].toolCalls)
  {
    if |transcript| == 0 then Failure(EmptyTranscript)
    else
      var last := transcript[|transcript| - 1];
      if !last.AIMessage? then Failure(NotAnAssistantMessage)
      else RunCalls(agent.tools, last.toolCalls)
  }

  /** One node visit: the node's new messages are appended to the
      transcript and the edges pick the next node. */
  function Step(agent: Agent, node: Node, transcript: seq<Message>): (r: Result<Config, AgentError>)
    ensures r.Success? ==>
              |transcript| <= |r.value.transcript| && r.value.transcript[..|transcript|] == transcript
    ensures node == LlmCall && r.Success? ==>
              |r.value.transcript| == |transcript| + 1
              && var m := r.value.transcript[|transcript|];
              m.AIMessage? && (r.value == Running(Environment, transcript + [m]) <==> |m.toolCalls| > 0)
              && (r.value == Finished(transcript + [m]) <==> m.toolCalls == [])
    ensures node == Environment && r.Success? ==> r.value.Running? && r.value.node == LlmCall
  {
    match node
    case LlmCall =>
      (match CallModel(agent, transcript)
       case Failure(e) => Failure(e)
       case Success(m) =>
         var next := transcript + [m];
         match ShouldContinue(next)
         case Failure(e) => Failure(e)
         case Success(Action) => Success(Running(Environment, next))
         case Success(End) => Success(Finished(next)))
    case Environment =>
      match ToolNode(agent, transcript)
      case Failure(e) => Failure(e)
      case Success(answers) => Success(Running(LlmCall, transcript + answers))
  }

  /** The model node appends exactly the model's reply, finishes exactly
      when the reply asks for no tool, and fails exactly as the model call
      fails. */
  lemma ModelStepAppendsReply(agent: Agent, transcript: seq<Message>)
    ensures var r := Step(agent, LlmCall, transcript);
            r.Success? ==>
              var m := r.value.transcript[|transcript|];
              CallModel(agent, transcript) == Success(m)
              && (r.value == Finished(transcript + [m]) <==> m.toolCalls == [])
    ensures var r := Step(agent, LlmCall, transcript);
            r.Failure? ==> CallModel(agent, transcript) == Failure(r.error)
  {
  }

  /** Runs the graph for at most `fuel` node visits. A finished
      configuration is returned as it is; a completed run only ever added
      messages, at least one of them when it did not start finished. */
  function Run(agent: Agent, c: Config, fuel: nat): (r: Outcome)
    decreases fuel
  {
    match c
    case Finished(t) => Completed(t)
    case Running(node, t) =>
      if fuel == 0 then OutOfFuel(c)
      else match Step(agent, node, t)
        case Failure(e) => Aborted(e)
        case Success(next) => Run(agent, next, fuel - 1)
  }

  /** A run starts at the model node with the caller's messages. */
  function Invoke(agent: Agent, messages: seq<Message>, fuel: nat): (r: Outcome)
    ensures r.Completed? ==> |messages| < |r.transcript| && r.transcript[..|messages|] == messages
  {
    RunAppendOnly(agent, Running(LlmCall, messages), fuel);
    Run(agent, Running(LlmCall, messages), fuel)
  }

  /** A batch aborts with the error of its first failing call, whatever
      the later calls would have done. */
  lemma {:induction false} BatchStopsAtFirstFailure(tools: map<string, Tool>, calls: seq<ToolCall>, i: nat)
    requires i < |calls| && CallTool(tools, calls[i]).Failure?
    requires forall j | 0 <= j < i :: CallTool(tools, calls[j]).Success?
    ensures RunCalls(tools, calls) == Failure(CallTool(tools, calls[i]).error)
    decreases i
  {
    if i > 0 {
      assert forall j | 0 <= j < i - 1 :: calls[1..][j] == calls[j + 1];
      BatchStopsAtFirstFailure(tools, calls[1..], i - 1);
    }
  }

  /** A sequence of complete rounds: an assistant message that asks for
      tools, then the answers to exactly those calls, and so on. */
  ghost predicate Rounds(t: seq<Message>)
    decreases |t|
  {
    |t| == 0
    || (t[0].AIMessage? && 0 < |t[0].toolCalls| < |t|
        && AnswersBatch(t[0].toolCalls, t[1..|t[0].toolCalls| + 1])
        && Rounds(t[|t[0].toolCalls| + 1..]))
  }

  /** The shape of the transcript at each point of a run that began with
      `init`: the caller's messages, then complete rounds, then (at the tool
      node or at the end) one more assistant message whose calls are still
      open or which asks for nothing. */
  ghost predicate Consistent(init: seq<Message>, c: Config) {
    var t := c.transcript;
    |init| <= |t| && t[..|init|] == init
    && var rest := t[|init|..];
    match c
    case Running(LlmCall, _) => Rounds(rest)
    case Running(Environment, _) =>
      |rest| > 0 && Rounds(rest[..|rest| - 1])
      && rest[|rest| - 1].AIMessage? && |rest[|rest| - 1].toolCalls| > 0
    case Finished(_) =>
      |rest| > 0 && Rounds(rest[..|rest| - 1])
      && rest[|rest| - 1].AIMessage? && rest[|rest| - 1].toolCalls == []
  }

  /** Closing a round keeps a sequence of rounds a sequence of rounds. */
  lemma {:induction false} RoundsAppend(a: seq<Message>, m: Message, b: seq<Message>)
    requires Rounds(a)
    requires m.AIMessage? && |m.toolCalls| > 0 && AnswersBatch(m.toolCalls, b)
    ensures Rounds(a + [m] + b)
    decreases |a|
  {
    var t := a + [m] + b;
    if |a| == 0 {
      assert t[0] == m;
      assert t[1..|m.toolCalls| + 1] == b;
      assert t[|m.toolCalls| + 1..] == [];
    } else {
      var n := |a[0].toolCalls|;
      var tail := a[n + 1..];
      RoundsAppend(tail, m, b);
      assert t[0] == a[0];
      assert t[1..n + 1] == a[1..n + 1];
      assert t[n + 1..] == tail + [m] + b;
    }
  }

  /** Rounds hold only assistant and tool messages. */
  lemma {:induction false} RoundsHoldOnlyReplies(t: seq<Message>)
    requires Rounds(t)
    ensures forall i | 0 <= i < |t| :: t[i].AIMessage? || t[i].ToolMessage?
    decreases |t|
  {
    if |t| > 0 {
      var n := |t[0].toolCalls|;
      RoundsHoldOnlyReplies(t[n + 1..]);
      forall i | 0 <= i < |t|
        ensures t[i].AIMessage? || t[i].ToolMessage?
      {
        if 1 <= i <= n {
          assert t[i] == t[1..n + 1][i - 1];
        } else if i > n {
          assert t[i] == t[n + 1..][i - n - 1];
        }
      }
    }
  }

  /** Errors a well-formed run can stop with: the model or a tool raised,
      or a tool name was unknown; the router and the tool node never meet a
      transcript they cannot read. */
  predicate RunTimeError(e: AgentError) {
    e.ModelFailed? || e.UnknownTool? || e.ToolFailed?
  }

  /** Every node visit keeps the transcript's shape. */
  lemma StepConsistent(agent: Agent, init: seq<Message>, node: Node, t: seq<Message>)
    requires Consistent(init, Running(node, t))
    ensures Step(agent, node, t).Success? ==> Consistent(init, Step(agent, node, t).value)
    ensures Step(agent, node, t).Failure? ==> RunTimeError(Step(agent, node, t).error)
  {
    match node
    case LlmCall => ModelStepConsistent(agent, init, t);
    case Environment => ToolStepConsistent(agent, init, t);
  }

  /** The model node appends one assistant message to complete rounds. */
  lemma ModelStepConsistent(agent: Agent, init: seq<Message>, t: seq<Message>)
    requires Consistent(init, Running(LlmCall, t))
    ensures Step(agent, LlmCall, t).Success? ==> Consistent(init, Step(agent, LlmCall, t).value)
    ensures Step(agent, LlmCall, t).Failure? ==> Step(agent, LlmCall, t).error.ModelFailed?
  {
    var rest := t[|init|..];
    assert Rounds(rest);
    if CallModel(agent, t).Success? {
      var m := CallModel(agent, t).value;
      var t' := t + [m];
      assert ShouldContinue(t').Success?;
      assert Step(agent, LlmCall, t) ==
               if |m.toolCalls| > 0 then Success(Running(Environment, t')) else Success(Finished(t'));
      assert t'[..|init|] == init;
      assert t'[|init|..] == rest + [m];
      assert (rest + [m])[..|rest|] == rest;
    }
  }

  /** The tool node answers the open assistant message and closes its round. */
  lemma ToolStepConsistent(agent: Agent, init: seq<Message>, t: seq<Message>)
    requires Consistent(init, Running(Environment, t))
    ensures Step(agent, Environment, t).Success? ==> Consistent(init, Step(agent, Environment, t).value)
    ensures Step(agent, Environment, t).Failure? ==>
              Step(agent, Environment, t).error.UnknownTool? || Step(agent, Environment, t).error.ToolFailed?
  {
    var rest := t[|init|..];
    var last := rest[|rest| - 1];
    assert t[|t| - 1] == last;
    var batch := RunCalls(agent.tools, last.toolCalls);
    assert ToolNode(agent, t) == batch;
    if batch.Success? {
      var answers := batch.value;
      var t' := t + answers;
      assert Step(agent, Environment, t) == Success(Running(LlmCall, t'));
      RoundsAppend(rest[..|rest| - 1], last, answers);
      assert rest == rest[..|rest| - 1] + [last];
      assert t'[..|init|] == init;
      assert t'[|init|..] == rest[..|rest| - 1] + [last] + answers;
    } else {
      RunCallsFailure(agent.tools, last.toolCalls);
    }
  }

  /** A failing batch fails with the error of one of its calls. */
  lemma {:induction false} RunCallsFailure(tools: map<string, Tool>, calls: seq<ToolCall>)
    requires RunCalls(tools, calls).Failure?
    ensures RunCalls(tools, calls).error.UnknownTool? || RunCalls(tools, calls).error.ToolFailed?
    decreases |calls|
  {
    if CallTool(tools, calls[0]).Success? {
      RunCallsFailure(tools, calls[1..]);
    }
  }

  /** One node visit of a run. */
  lemma RunUnfold(agent: Agent, c: Config, fuel: nat)
    requires c.Running? && fuel > 0
    ensures var step := Step(agent, c.node, c.transcript);
            Run(agent, c, fuel) == if step.Success? then Run(agent, step.value, fuel - 1) else Aborted(step.error)
  {
  }

  /** A run only ever adds messages: a completed run ends with the messages
      it started from plus at least one more when it did not start
      finished, and a run out of fuel stopped at an extension of them. */
  lemma {:induction false} RunAppendOnly(agent: Agent, c: Config, fuel: nat)
    ensures Run(agent, c, fuel).Completed? ==>
              var t := Run(agent, c, fuel).transcript;
              |c.transcript| <= |t| && t[..|c.transcript|] == c.transcript
              && (c.Running? ==> |c.transcript| < |t|)
    ensures Run(agent, c, fuel).OutOfFuel? ==>
              var t := Run(agent, c, fuel).config.transcript;
              |c.transcript| <= |t| && t[..|c.transcript|] == c.transcript
    decreases fuel
  {
    if c.Running? && fuel > 0 {
      var step := Step(agent, c.node, c.transcript);
      RunUnfold(agent, c, fuel);
      if step.Success? {
        var next := step.value;
        RunAppendOnly(agent, next, fuel - 1);
        var r := Run(agent, next, fuel - 1);
        if r.Completed? {
          PrefixTransitive(c.transcript, next.transcript, r.transcript);
          assert next.Finished? ==> c.node == LlmCall;
        } else if r.OutOfFuel? {
          PrefixTransitive(c.transcript, next.transcript, r.config.transcript);
        }
      }
    }
  }

  /** Extending an extension extends the original. */
  lemma PrefixTransitive(a: seq<Message>, b: seq<Message>, c: seq<Message>)
    requires |a| <= |b| && b[..|a|] == a
    requires |b| <= |c| && c[..|b|] == b
    ensures c[..|a|] == a
  {
    assert c[..|a|] == c[..|b|][..|a|];
  }

  /** What a run that began with `init` can end in. */
  lemma {:induction false} RunConsistent(agent: Agent, init: seq<Message>, c: Config, fuel: nat)
    requires Consistent(init, c)
    ensures Run(agent, c, fuel).Completed? ==> Consistent(init, Finished(Run(agent, c, fuel).transcript))
    ensures Run(agent, c, fuel).OutOfFuel? ==> Consistent(init, Run(agent, c, fuel).config)
    ensures Run(agent, c, fuel).Aborted? ==> RunTimeError(Run(agent, c, fuel).error)
    decreases fuel
  {
    match c
    case Finished(_) =>
    case Running(node, t) =>
      if fuel > 0 {
        var step := Step(agent, node, t);
        StepConsistent(agent, init, node, t);
        if step.Success? {
          RunConsistent(agent, init, step.value, fuel - 1);
          assert Run(agent, c, fuel) == Run(agent, step.value, fuel - 1);
        } else {
          assert Run(agent, c, fuel) == Aborted(step.error);
        }
      }
  }

  /** A completed run keeps the caller's messages as they were, follows them
      with complete tool rounds and one final assistant message that asks
      for nothing, and never stores a system or human message of its own. */
  lemma InvokeShape(agent: Agent, init: seq<Message>, fuel: nat)
    ensures Invoke(agent, init, fuel).Completed? ==>
              var t := Invoke(agent, init, fuel).transcript;
              |init| < |t| && t[..|init|] == init
              && Rounds(t[|init|..|t| - 1])
              && t[|t| - 1].AIMessage? && t[|t| - 1].toolCalls == []
              && forall i | |init| <= i < |t| :: t[i].AIMessage? || t[i].ToolMessage?
    ensures Invoke(agent, init, fuel).Aborted? ==> RunTimeError(Invoke(agent, init, fuel).error)
  {
    assert init[|init|..] == [];
    RunConsistent(agent, init, Running(LlmCall, init), fuel);
    if Invoke(agent, init, fuel).Completed? {
      var t := Invoke(agent, init, fuel).transcript;
      var rest := t[|init|..];
      assert rest[..|rest| - 1] == t[|init|..|t| - 1];
      RoundsHoldOnlyReplies(rest[..|rest| - 1]);
      forall i | |init| <= i < |t|
        ensures t[i].AIMessage? || t[i].ToolMessage?
      {
        if i < |t| - 1 {
          assert t[i] == rest[..|rest| - 1][i - |init|];
        }
      }
    }
  }

  /** More fuel does not change a run that already stopped. */
  lemma {:induction false} RunFuelMonotone(agent: Agent, c: Config, fuel: nat, more: nat)
    requires fuel <= more
    requires !Run(agent, c, fuel).OutOfFuel?
    ensures Run(agent, c, more) == Run(agent, c, fuel)
    decreases fuel
  {
    if c.Running? && fuel > 0 && Step(agent, c.node, c.transcript).Success? {
      RunFuelMonotone(agent, Step(agent, c.node, c.transcript).value, fuel - 1, more - 1);
    }
  }

  /** A model that answers at once ends the run after one model call,
      without ever visiting the tool node. */
  lemma FinalAnswerFirst(agent: Agent, init: seq<Message>, text: string, fuel: nat)
    requires fuel >= 1
    requires agent.model([SystemMessage(agent.instructions)] + init) == Success(Reply(text, []))
    ensures Invoke(agent, init, fuel) == Completed(init + [AIMessage(text, [])])
  {
    var t := init + [AIMessage(text, [])];
    assert CallModel(agent, init) == Success(AIMessage(text, []));
    assert ShouldContinue(t) == Success(End);
    assert Step(agent, LlmCall, init) == Success(Finished(t));
    assert Run(agent, Finished(t), fuel - 1) == Completed(t);
  }

  /** One tool round, then a final answer: the transcript gains the
      assistant message with its calls, one answer per call in order, and
      the final assistant message. */
  lemma OneToolRound(agent: Agent, init: seq<Message>, first: string, calls: seq<ToolCall>,
                     answers: seq<Message>, final: string, fuel: nat)
    requires fuel >= 3 && |calls| > 0
    requires agent.model([SystemMessage(agent.instructions)] + init) == Success(Reply(first, calls))
    requires RunCalls(agent.tools, calls) == Success(answers)
    requires agent.model([SystemMessage(agent.instructions)] + init + [AIMessage(first, calls)] + answers)
             == Success(Reply(final, []))
    ensures Invoke(agent, init, fuel) == Completed(init + [AIMessage(first, calls)] + answers + [AIMessage(final, [])])
  {
    var t2 := init + [AIMessage(first, calls)] + answers;
    var t3 := t2 + [AIMessage(final, [])];
    assert Invoke(agent, init, fuel) == Run(agent, Running(LlmCall, t2), fuel - 2) by {
      ToolRoundThenModel(agent, init, Reply(first, calls), answers, fuel);
    }
    assert Run(agent, Running(LlmCall, t2), fuel - 2) == Completed(t3) by {
      PromptRegroups(SystemMessage(agent.instructions), init, AIMessage(first, calls), answers);
      ModelStepWith(agent, t2, Reply(final, []));
      RunUnfold(agent, Running(LlmCall, t2), fuel - 2);
    }
  }

  /** The prompt of the second model call, regrouped. */
  lemma PromptRegroups(system: Message, init: seq<Message>, m: Message, answers: seq<Message>)
    ensures [system] + (init + [m] + answers) == [system] + init + [m] + answers
  {
  }

  /** A model reply with tool calls whose calls all succeed brings the run
      back to the model node with the reply and the answers appended. */
  lemma ToolRoundThenModel(agent: Agent, t: seq<Message>, reply: Reply, answers: seq<Message>, fuel: nat)
    requires fuel >= 2 && |reply.toolCalls| > 0
    requires agent.model([SystemMessage(agent.instructions)] + t) == Success(reply)
    requires RunCalls(agent.tools, reply.toolCalls) == Success(answers)
    ensures Run(agent, Running(LlmCall, t), fuel)
            == Run(agent, Running(LlmCall, t + [AIMessage(reply.content, reply.toolCalls)] + answers), fuel - 2)
  {
    var t1 := t + [AIMessage(reply.content, reply.toolCalls)];
    ModelStepWith(agent, t, reply);
    ToolStepWith(agent, t1, answers);
    RunUnfold(agent, Running(LlmCall, t), fuel);
    RunUnfold(agent, Running(Environment, t1), fuel - 1);
  }

  /** The model node with a known reply: it appends the reply and moves to
      the tool node exactly when the reply asks for tools. */
  lemma ModelStepWith(agent: Agent, t: seq<Message>, reply: Reply)
    requires agent.model([SystemMessage(agent.instructions)] + t) == Success(reply)
    ensures var next := t + [AIMessage(reply.content, reply.toolCalls)];
            Step(agent, LlmCall, t)
            == Success(if |reply.toolCalls| > 0 then Running(Environment, next) else Finished(next))
  {
    var next := t + [AIMessage(reply.content, reply.toolCalls)];
    assert CallModel(agent, t) == Success(AIMessage(reply.content, reply.toolCalls));
    assert next[|next| - 1] == AIMessage(reply.content, reply.toolCalls);
  }

  /** The tool node whose calls all succeed moves back to the model with
      the answers appended. */
  lemma ToolStepWith(agent: Agent, t: seq<Message>, answers: seq<Message>)
    requires |t| > 0 && t[|t| - 1].AIMessage?
    requires RunCalls(agent.tools, t[|t| - 1].toolCalls) == Success(answers)
    ensures Step(agent, Environment, t) == Success(Running(LlmCall, t + answers))
  {
    assert ToolNode(agent, t) == Success(answers);
  }
}

=== FILE: decimal.dfy ===
/** Python's `str(n)` for an integer `n`: an optional minus sign followed by
    the decimal digits of `|n|`, without leading zeros. */
module Decimal {
  import opened Wrappers

  predicate IsDigit(c: char) {
    '0' <= c <= '9'
  }

  predicate AllDigits(s: string) {
    forall i | 0 <= i < |s| :: IsDigit(s[i])
  }

  function DigitChar(d: nat): (c: char)
    requires d < 10
    ensures IsDigit(c)
  {
    "0123456789"[d]
  }

  function DigitValue(c: char): (d: nat)
    requires IsDigit(c)
    ensures d < 10
    ensures DigitChar(d) == c
  {
    (c - '0') as nat
  }

  /** The decimal digits of `n`, most significant first; `"0"` for zero. */
  function NatDigits(n: nat): (s: string)
    ensures |s| > 0 && AllDigits(s)
    ensures |s| > 1 ==> s[0] != '0'
    decreases n
  {
    if n < 10 then [DigitChar(n)] else NatDigits(n / 10) + [DigitChar(n % 10)]
  }

  /** The rendering Python's `str` gives an `int`. */
  function IntToDecimal(n: int): (s: string)
    ensures |s| > 0
    ensures n < 0 <==> s[0] == '-'
    ensures forall i | 0 <= i < |s| :: s[i] == '-' || IsDigit(s[i])
    ensures var digits := if n < 0 then s[1..] else s;
            |digits| > 0 && AllDigits(digits) && (|digits| > 1 ==> digits[0] != '0')
  {
    if n < 0 then "-" + NatDigits(-n) else NatDigits(n)
  }

  /** The number a digit string denotes (0 for the empty string). */
  function DigitsValue(s: string): nat
    requires AllDigits(s)
    decreases |s|
  {
    if |s| == 0 then 0 else DigitsValue(s[..|s| - 1]) * 10 + DigitValue(s[|s| - 1])
  }

  /** Reads back an optionally negative decimal numeral. */
  function ParseDecimal(s: string): (r: Option<int>)
    ensures r.Some? ==> |s| > 0
  {
    if |s| == 0 then None
    else if s[0] == '-' then
      if |s| > 1 && AllDigits(s[1..]) then Some(0 - DigitsValue(s[1..]) as int) else None
    else if AllDigits(s) then Some(DigitsValue(s))
    else None
  }

  lemma {:induction false} NatDigitsRoundTrip(n: nat)
    ensures DigitsValue(NatDigits(n)) == n
    decreases n
  {
    var s := NatDigits(n);
    if n >= 10 {
      NatDigitsRoundTrip(n / 10);
      assert s[..|s| - 1] == NatDigits(n / 10);
      assert DigitValue(s[|s| - 1]) == n % 10;
    }
  }

  /** Reading back what `str` wrote gives the original integer. */
  lemma IntToDecimalRoundTrip(n: int)
    ensures ParseDecimal(IntToDecimal(n)) == Some(n)
  {
    if n < 0 {
      NegativeRoundTrip(n);
    } else {
      NatDigitsRoundTrip(n);
      NaturalParse(NatDigits(n));
    }
  }

  /** A negative integer reads back through its minus sign. */
  lemma NegativeRoundTrip(n: int)
    requires n < 0
    ensures ParseDecimal(IntToDecimal(n)) == Some(n)
  {
    var digits := NatDigits(-n);
    DropSign(digits);
    SignedParse(IntToDecimal(n));
    NatDigitsRoundTrip(-n);
  }

  /** Dropping the minus sign gives back the digits. */
  lemma DropSign(digits: string)
    ensures ("-" + digits)[1..] == digits
  {
  }

  /** A minus sign followed by digits reads back as a negative number. */
  lemma SignedParse(s: string)
    requires |s| > 1 && s[0] == '-' && AllDigits(s[1..])
    ensures ParseDecimal(s) == Some(0 - DigitsValue(s[1..]) as int)
  {
  }

  /** A digit string reads back as its value. */
  lemma NaturalParse(digits: string)
    requires |digits| > 0 && AllDigits(digits)
    ensures ParseDecimal(digits) == Some(DigitsValue(digits))
  {
    assert IsDigit(digits[0]);
  }

  /** Distinct integers render differently. */
  lemma IntToDecimalInjective(m: int, n: int)
    requires IntToDecimal(m) == IntToDecimal(n)
    ensures m == n
  {
    IntToDecimalRoundTrip(m);
    IntToDecimalRoundTrip(n);
  }
}

=== FILE: forecast.dfy ===
/** The buoy-feed row selector and sentence renderer of the marine forecast
    tool: it skips two header lines and stops at the first row the sentinel
    test does not skip. That row is either accepted, and its height and
    period are rendered in a fixed sentence, or it makes the tool raise. */
module Forecast {
  import opened Wrappers
  import opened Decimal

  /** The feed's marker for a missing reading. */
  const Sentinel: string := "MM"

  /** Zero-based token positions of the wave height (metres) and the
      dominant wave period (seconds) in an observation row. */
  const HeightColumn: nat := 8
  const PeriodColumn: nat := 9

  /** One record produced by the CSV reader. A blank line yields a record
      with no fields at all; any other line is abstracted to the whitespace
      tokens of its first comma-separated field. */
  datatype FeedRow = EmptyRecord | Record(tokens: seq<string>)

  /** Why a row reached before any accepted row makes the tool raise. */
  datatype RowFault =
    | NoFirstField                  // the record has no field 0
    | MissingToken(position: nat)   // the token list is too short for this position

  /** What the selection loop does with one row. */
  datatype Verdict = Skip | Stop(decision: Decision)

  datatype Decision =
    | Select(height: string, period: string)
    | Fault(fault: RowFault)

  /** The outcome of scanning the data rows in order. `index` counts data
      rows, so the 0-based record index in the feed is `index + 2`. */
  datatype ScanResult = Exhausted | Stopped(index: nat, decision: Decision)

  /** The wave period as the forecast object holds it: the integer 0 it is
      initialised with, or the token copied from the selected row. */
  datatype Period = PeriodInt(n: int) | PeriodText(text: string)

  datatype MarineForecast = MarineForecast(waveHeight: int, wavePeriod: Period)

  datatype ForecastError =
    // `line` is the 0-based index of the deciding record in the feed
    | BadRow(line: nat, fault: RowFault)      // IndexError while testing a row
    | NotANumber(line: nat, token: string)    // float() or round() raised on the height token

  /** The forecast a fresh object holds before any row is accepted. */
  const Default: MarineForecast := MarineForecast(0, PeriodInt(0))

  /** `str` of the period field: the token itself, or the integer's digits. */
  function PeriodStr(p: Period): (s: string)
    ensures p.PeriodText? ==> s == p.text
    ensures p.PeriodInt? ==> s == IntToDecimal(p.n) && ParseDecimal(s) == Some(p.n)
  {
    match p
    case PeriodInt(n) => IntToDecimalRoundTrip(n); IntToDecimal(n)
    case PeriodText(t) => t
  }

  const Prefix: string := "The waves are "
  const Middle: string := " feet with period of "
  const Suffix: string := " seconds."

  /** The sentence `getHumanReadableStr` builds from the two fields. */
  function Sentence(height: string, period: string): (s: string)
    ensures |s| == |Prefix| + |height| + |Middle| + |period| + |Suffix|
    ensures s[..|Prefix|] == Prefix
    ensures s[|Prefix|..|Prefix| + |height|] == height
    ensures s[|Prefix| + |height|..|Prefix| + |height| + |Middle|] == Middle
    ensures s[|Prefix| + |height| + |Middle|..|s| - |Suffix|] == period
    ensures s[|s| - |Suffix|..] == Suffix
  {
    Prefix + height + Middle + period + Suffix
  }

  /** `getHumanReadableStr`: the height's `str` follows the prefix, the
      middle text follows the height, and the period text closes the
      sentence before the suffix. */
  function Render(f: MarineForecast): (s: string)
    ensures var h := IntToDecimal(f.waveHeight);
            |Prefix| + |h| + |Middle| + |Suffix| <= |s|
            && s[..|Prefix|] == Prefix
            && s[|Prefix|..|Prefix| + |h|] == h
            && s[|Prefix| + |h|..|Prefix| + |h| + |Middle|] == Middle
            && s[|Prefix| + |h| + |Middle|..|s| - |Suffix|] == PeriodStr(f.wavePeriod)
            && s[|s| - |Suffix|..] == Suffix
  {
    Sentence(IntToDecimal(f.waveHeight), PeriodStr(f.wavePeriod))
  }

  /** Reading the rendered height back as a number gives the forecast's
      height. */
  lemma RenderReadsBack(f: MarineForecast)
    ensures var s := Render(f);
            var h := IntToDecimal(f.waveHeight);
            |Prefix| + |h| <= |s| && ParseDecimal(s[|Prefix|..|Prefix| + |h|]) == Some(f.waveHeight)
  {
    IntToDecimalRoundTrip(f.waveHeight);
  }

  /** A fresh forecast renders as zero feet and zero seconds. */
  lemma DefaultSentence()
    ensures Render(Default) == "The waves are 0 feet with period of 0 seconds."
  {
    assert IntToDecimal(0) == "0" by {
      assert NatDigits(0) == "0";
    }
    assert PeriodStr(Default.wavePeriod) == "0";
    assert Prefix + "0" + Middle == "The waves are 0 feet with period of ";
    assert Prefix + "0" + Middle + "0" == "The waves are 0 feet with period of 0";
  }

  /** The test of one row, with Python's left-to-right short circuit: the
      token list must be non-empty before token 8 is read, and token 9 is
      only read once token 8 is known not to be the sentinel. */
  function Classify(row: FeedRow): (v: Verdict)
    ensures v.Stop? && v.decision.Select? <==>
              row.Record? && |row.tokens| > PeriodColumn
              && row.tokens[HeightColumn] != Sentinel && row.tokens[PeriodColumn] != Sentinel
    ensures v.Stop? && v.decision.Select? ==>
              v.decision.height == row.tokens[HeightColumn] && v.decision.period == row.tokens[PeriodColumn]
    ensures v.Stop? && v.decision.Fault? <==>
              row.EmptyRecord?
              || (0 < |row.tokens| <= HeightColumn)
              || (|row.tokens| == PeriodColumn && row.tokens[HeightColumn] != Sentinel)
  {
    match row
    case EmptyRecord => Stop(Fault(NoFirstField))
    case Record(t) =>
      if |t| == 0 then Skip
      else if |t| <= HeightColumn then Stop(Fault(MissingToken(HeightColumn)))
      else if t[HeightColumn] == Sentinel then Skip
      else if |t| <= PeriodColumn then Stop(Fault(MissingToken(PeriodColumn)))
      else if t[PeriodColumn] == Sentinel then Skip
      else Stop(Select(t[HeightColumn], t[PeriodColumn]))
  }

  /** Row `i` is the first row the loop does not skip. */
  ghost predicate FirstStop(rows: seq<FeedRow>, i: nat) {
    i < |rows| && Classify(rows[i]).Stop?
    && forall j | 0 <= j < i :: Classify(rows[j]).Skip?
  }

  /** The selection loop as a recursion over the rows from position `k` on. */
  function ScanFrom(rows: seq<FeedRow>, k: nat): (r: ScanResult)
    requires k <= |rows|
    requires forall j | 0 <= j < k :: Classify(rows[j]).Skip?
    ensures r.Exhausted? <==> forall j | 0 <= j < |rows| :: Classify(rows[j]).Skip?
    ensures r.Stopped? ==> FirstStop(rows, r.index) && Classify(rows[r.index]) == Stop(r.decision)
    decreases |rows| - k
  {
    if k == |rows| then Exhausted
    else match Classify(rows[k])
      case Skip => ScanFrom(rows, k + 1)
      case Stop(d) => Stopped(k, d)
  }

  function Scan(rows: seq<FeedRow>): (r: ScanResult)
    ensures r.Exhausted? <==> forall j | 0 <= j < |rows| :: Classify(rows[j]).Skip?
    ensures r.Stopped? ==> FirstStop(rows, r.index) && Classify(rows[r.index]) == Stop(r.decision)
  {
    ScanFrom(rows, 0)
  }

  /** The `for row in reader: ... break` loop, written as a loop. */
  method SelectRow(rows: seq<FeedRow>) returns (r: ScanResult)
    ensures r == Scan(rows)
  {
    var k := 0;
    while k < |rows|
      invariant k <= |rows|
      invariant forall j | 0 <= j < k :: Classify(rows[j]).Skip?
    {
      var v := Classify(rows[k]);
      if v.Stop? {
        ScanUnique(rows, Stopped(k, v.decision));
        return Stopped(k, v.decision);
      }
      k := k + 1;
    }
    r := Exhausted;
  }

  /** The scan result is the only one its characterisation allows. */
  lemma ScanUnique(rows: seq<FeedRow>, r: ScanResult)
    requires r.Stopped? ==> FirstStop(rows, r.index) && Classify(rows[r.index]) == Stop(r.decision)
    requires r.Exhausted? ==> forall j | 0 <= j < |rows| :: Classify(rows[j]).Skip?
    ensures Scan(rows) == r
  {
  }

  /** At most one row is the first one not skipped. */
  lemma FirstStopUnique(rows: seq<FeedRow>)
    ensures forall i: nat, j: nat | FirstStop(rows, i) && FirstStop(rows, j) :: i == j
  {
  }

  /** The rows the loop sees: everything after the two header lines. */
  function DataRows(lines: seq<FeedRow>): (d: seq<FeedRow>)
    ensures |lines| <= 2 ==> d == []
    ensures |lines| > 2 ==> |d| == |lines| - 2 && forall i | 0 <= i < |d| :: d[i] == lines[i + 2]
  {
    if |lines| <= 2 then [] else lines[2..]
  }

  /** The forecast tool after the fetch: scan the data rows and render the
      first accepted row, or the defaults when there is none. `feet` stands
      for `round(float(token) * 3.28084)`, `None` where Python raises. */
  function ForecastOf(lines: seq<FeedRow>, feet: string -> Option<int>): (r: Result<string, ForecastError>)
    ensures (forall j | 0 <= j < |DataRows(lines)| :: Classify(DataRows(lines)[j]).Skip?) ==>
              r == Success("The waves are 0 feet with period of 0 seconds.")
    ensures forall i: nat | FirstStop(DataRows(lines), i) ::
              match Classify(DataRows(lines)[i]).decision
              case Fault(f) => r == Failure(BadRow(i + 2, f))
              case Select(h, p) =>
                if feet(h).None? then r == Failure(NotANumber(i + 2, h))
                else r == Success(Sentence(IntToDecimal(feet(h).value), p))
  {
    FirstStopUnique(DataRows(lines));
    match Scan(DataRows(lines))
    case Exhausted =>
      DefaultSentence();
      Success(Render(Default))
    case Stopped(i, Fault(f)) => Failure(BadRow(i + 2, f))
    case Stopped(i, Select(h, p)) =>
      match feet(h)
      case None => Failure(NotANumber(i + 2, h))
      case Some(ft) => Success(Render(MarineForecast(ft, PeriodText(p))))
  }

  /** Only the lines after the two headers matter: replacing the headers
      never changes what the tool returns. */
  lemma HeadersIgnored(h1: seq<FeedRow>, h2: seq<FeedRow>, data: seq<FeedRow>, feet: string -> Option<int>)
    requires |h1| == 2 && |h2| == 2
    ensures ForecastOf(h1 + data, feet) == ForecastOf(h2 + data, feet)
  {
    assert (h1 + data)[2..] == data;
    assert (h2 + data)[2..] == data;
    SameDataRowsSameForecast(h1 + data, h2 + data, feet);
  }

  /** The tool's answer depends on the data rows alone. */
  lemma SameDataRowsSameForecast(l1: seq<FeedRow>, l2: seq<FeedRow>, feet: string -> Option<int>)
    requires DataRows(l1) == DataRows(l2)
    ensures ForecastOf(l1, feet) == ForecastOf(l2, feet)
  {
  }

  /** A feed of at most the two header lines yields the zero sentence. */
  lemma ShortFeedGivesDefault(lines: seq<FeedRow>, feet: string -> Option<int>)
    requires |lines| <= 2
    ensures ForecastOf(lines, feet) == Success("The waves are 0 feet with period of 0 seconds.")
  {
  }

  /** The loop stops at its first non-skipped row: whatever follows that row
      is never looked at. */
  lemma {:induction false} LaterRowsIgnored(rows: seq<FeedRow>, i: nat, rest: seq<FeedRow>)
    requires FirstStop(rows, i)
    ensures Scan(rows[..i + 1] + rest) == Scan(rows)
  {
    var rows' := rows[..i + 1] + rest;
    FirstStopUnique(rows);
    assert forall j | 0 <= j <= i :: rows'[j] == rows[j];
    assert FirstStop(rows', i);
    ScanUnique(rows', Stopped(i, Scan(rows).decision));
  }

  /** The same, stated for the whole tool on a feed with its headers. */
  lemma ForecastIgnoresLaterLines(lines: seq<FeedRow>, i: nat, rest: seq<FeedRow>, feet: string -> Option<int>)
    requires FirstStop(DataRows(lines), i)
    ensures ForecastOf(lines[..i + 3] + rest, feet) == ForecastOf(lines, feet)
  {
    var lines' := lines[..i + 3] + rest;
    assert DataRows(lines') == DataRows(lines)[..i + 1] + rest;
    LaterRowsIgnored(DataRows(lines), i, rest);
  }

  /** Rows skipped by the loop have no influence: a row is decisive only if
      every earlier data row is skipped. */
  lemma SkippedPrefixIgnored(skipped: seq<FeedRow>, rows: seq<FeedRow>)
    requires forall j | 0 <= j < |skipped| :: Classify(skipped[j]).Skip?
    ensures Scan(skipped + rows) ==
              match Scan(rows)
              case Exhausted => Exhausted
              case Stopped(i, d) => Stopped(|skipped| + i, d)
  {
    var all := skipped + rows;
    var expected := match Scan(rows)
      case Exhausted => Exhausted
      case Stopped(i, d) => Stopped(|skipped| + i, d);
    assert forall j | 0 <= j < |rows| :: all[|skipped| + j] == rows[j];
    if Scan(rows).Stopped? {
      var i := Scan(rows).index;
      assert forall j | 0 <= j < |skipped| + i :: Classify(all[j]).Skip? by {
        forall j | 0 <= j < |skipped| + i
          ensures Classify(all[j]).Skip?
        {
          if j >= |skipped| {
            assert all[j] == rows[j - |skipped|];
          }
        }
      }
      assert FirstStop(all, |skipped| + i);
    } else {
      assert forall j | 0 <= j < |all| :: Classify(all[j]).Skip? by {
        forall j | 0 <= j < |all|
          ensures Classify(all[j]).Skip?
        {
          if j >= |skipped| {
            assert all[j] == rows[j - |skipped|];
          }
        }
      }
    }
    ScanUnique(all, expected);
  }

  /** A rendered sentence determines the two strings it was built from, as
      long as the height contains no space. */
  lemma SentenceInjective(h1: string, p1: string, h2: string, p2: string)
    requires forall k | 0 <= k < |h1| :: h1[k] != ' '
    requires forall k | 0 <= k < |h2| :: h2[k] != ' '
    requires Sentence(h1, p1) == Sentence(h2, p2)
    ensures h1 == h2 && p1 == p2
  {
    SentenceLayout(h1, p1);
    SentenceLayout(h2, p2);
    if |h1| != |h2| {
      assert false;
    }
    var s := Sentence(h1, p1);
    assert h1 == s[|Prefix|..|Prefix| + |h1|];
    assert p1 == s[|Prefix| + |h1| + |Middle|..|s| - |Suffix|];
  }

  /** The height is followed by the space that opens the middle text. */
  lemma SentenceLayout(h: string, p: string)
    ensures Sentence(h, p)[|Prefix| + |h|] == ' '
    ensures forall j | 0 <= j < |h| :: Sentence(h, p)[|Prefix| + j] == h[j]
  {
  }

  /** Two forecasts that render alike hold the same height and the same
      period text. */
  lemma RenderInjective(f1: MarineForecast, f2: MarineForecast)
    requires Render(f1) == Render(f2)
    ensures f1.waveHeight == f2.waveHeight
    ensures PeriodStr(f1.wavePeriod) == PeriodStr(f2.wavePeriod)
  {
    SentenceInjective(IntToDecimal(f1.waveHeight), PeriodStr(f1.wavePeriod),
                      IntToDecimal(f2.waveHeight), PeriodStr(f2.wavePeriod));
    IntToDecimalInjective(f1.waveHeight, f2.waveHeight);
  }

  /** Two header lines and one row reading 1.0 m and 10 s, where the
      conversion gives 3 feet, produce the three-feet sentence. */
  lemma OneMetreExample(h1: FeedRow, h2: FeedRow, feet: string -> Option<int>)
    requires feet("1.0") == Some(3)
    ensures ForecastOf([h1, h2, Record(["2024", "01", "01", "00", "00", "250", "5.0", "6.0", "1.0", "10", "MM"])], feet)
            == Success("The waves are 3 feet with period of 10 seconds.")
  {
    var row := Record(["2024", "01", "01", "00", "00", "250", "5.0", "6.0", "1.0", "10", "MM"]);
    var lines := [h1, h2, row];
    assert Classify(row) == Stop(Select("1.0", "10"));
    assert DataRows(lines) == [row];
    assert FirstStop(DataRows(lines), 0);
    assert IntToDecimal(3) == "3" by {
      assert NatDigits(3) == "3";
    }
    ThreeFeetSentence();
  }

  /** The sentence for a three-feet height and a ten-second period. */
  lemma ThreeFeetSentence()
    ensures Sentence("3", "10") == "The waves are 3 feet with period of 10 seconds."
  {
    assert Prefix + "3" == "The waves are 3";
    assert Prefix + "3" + Middle == "The waves are 3 feet with period of ";
    assert Prefix + "3" + Middle + "10" == "The waves are 3 feet with period of 10";
  }
}

=== FILE: marine_agent.dfy ===
/** The deployed agent: the marine forecast tool, registered under its
    function name, behind the agent loop. */
module MarineAgent {
  import opened Wrappers
  import opened Forecast
  import opened Agent

  /** The name the tool decorator gives the forecast function. */
  const ToolName: string := "getMarineForcast"

  /** The tool's one argument. */
  const BuoyArg: string := "buoyId"

  const FeedHost: string := "http://www.ndbc.noaa.gov/data/realtime2/"

  /** The address of a buoy's real-time observation file. */
  function FeedUrl(buoyId: string): (url: string)
    ensures |url| == |FeedHost| + |buoyId| + 4
    ensures url[..|FeedHost|] == FeedHost
    ensures url[|FeedHost|..|url| - 4] == buoyId
    ensures url[|url| - 4..] == ".txt"
  {
    FeedHost + buoyId + ".txt"
  }

  /** Distinct buoys are fetched from distinct addresses. */
  lemma FeedUrlInjective(a: string, b: string)
    requires FeedUrl(a) == FeedUrl(b)
    ensures a == b
  {
    assert a == FeedUrl(a)[|FeedHost|..|FeedUrl(a)| - 4];
  }

  /** The text of the exception the forecast tool raises: Python's
      `IndexError` text for a row that raised, and a text ending in the
      offending token when the height does not convert. */
  function Describe(e: ForecastError): (text: string)
    ensures e.BadRow? <==> text == "list index out of range"
    ensures e.NotANumber? ==> |e.token| <= |text| && text[|text| - |e.token|..] == e.token
  {
    match e
    case BadRow(_, _) => "list index out of range"
    case NotANumber(_, token) => "could not convert wave height to feet: " + token
  }

  /** The forecast tool. `fetch` stands for the HTTP GET of a URL, already
      split into CSV records, or the exception it raises. */
  function MarineTool(fetch: string -> Result<seq<FeedRow>, string>, feet: string -> Option<int>): (t: Tool)
    ensures t.name == ToolName
    ensures forall args: Args | BuoyArg !in args :: t.run(args).Failure?
    ensures forall args: Args | BuoyArg in args && fetch(FeedUrl(args[BuoyArg])).Failure? ::
              t.run(args) == Failure(fetch(FeedUrl(args[BuoyArg])).error)
    ensures forall args: Args | BuoyArg in args && fetch(FeedUrl(args[BuoyArg])).Success? ::
              var forecast := ForecastOf(fetch(FeedUrl(args[BuoyArg])).value, feet);
              (forecast.Success? ==> t.run(args) == Success(forecast.value))
              && (forecast.Failure? ==> t.run(args) == Failure(Describe(forecast.error)))
  {
    Tool(ToolName, (args: Args) =>
      if BuoyArg !in args then Failure("missing argument " + BuoyArg)
      else match fetch(FeedUrl(args[BuoyArg]))
        case Failure(e) => Failure(e)
        case Success(lines) =>
          match ForecastOf(lines, feet)
          case Success(sentence) => Success(sentence)
          case Failure(err) => Failure(Describe(err)))
  }

  /** The agent with the forecast tool as its only tool. */
  function Deploy(model: seq<Message> -> Result<Reply, string>, instructions: string,
                  fetch: string -> Result<seq<FeedRow>, string>, feet: string -> Option<int>): (a: Agent)
    ensures a.tools.Keys == {ToolName}
  {
    Agent(model, Registry([MarineTool(fetch, feet)]), instructions)
  }

  /** A call of the forecast tool with a buoy id answers with the sentence
      the forecast computes on that buoy's feed, under the call's id; a
      call of any other name is an unknown tool. */
  lemma ForecastCall(model: seq<Message> -> Result<Reply, string>, instructions: string,
                     fetch: string -> Result<seq<FeedRow>, string>, feet: string -> Option<int>,
                     call: ToolCall)
    ensures var a := Deploy(model, instructions, fetch, feet);
            call.name != ToolName ==> CallTool(a.tools, call) == Failure(UnknownTool(call.name))
    ensures var a := Deploy(model, instructions, fetch, feet);
            call.name == ToolName && BuoyArg in call.args && fetch(FeedUrl(call.args[BuoyArg])).Success? ==>
              match ForecastOf(fetch(FeedUrl(call.args[BuoyArg])).value, feet)
              case Success(sentence) => CallTool(a.tools, call) == Success(sentence)
              case Failure(err) => CallTool(a.tools, call) == Failure(ToolFailed(call.id, ToolName, Describe(err)))
    ensures var a := Deploy(model, instructions, fetch, feet);
            call.name == ToolName && BuoyArg in call.args && fetch(FeedUrl(call.args[BuoyArg])).Failure? ==>
              CallTool(a.tools, call) == Failure(ToolFailed(call.id, ToolName, fetch(FeedUrl(call.args[BuoyArg])).error))
    ensures var a := Deploy(model, instructions, fetch, feet);
            call.name == ToolName && BuoyArg !in call.args ==> CallTool(a.tools, call).Failure?
  {
  }
}

=== FILE: wrappers.dfy ===
/** Failure-carrying result types shared by the forecast tool and the agent loop. */
module Wrappers {

  /** A value that may be absent. */
  datatype Option<+T> = None | Some(value: T)

  /** Either a value or the error that stopped its computation; the model's
      counterpart of a Python call that returns or raises. */
  datatype Result<+R, +E> = Success(value: R) | Failure(error: E)
}
